=== FILE: README.md ===
# Task timer: timer form, `/api/tasks` handlers and calendar view in Dafny

This project models the logic of a small task-timer web app. The app has three parts:

- a stopwatch form (`TimerForm`) that starts and stops a named task;
- the `POST`/`GET` handlers of `/api/tasks`;
- a calendar view that loads, moves and creates tasks.

The hosted row store becomes an in-memory sequence of `Task` rows, with `id`, `name`, `start`, and an optional `end`. Timestamps are integer milliseconds. Each store or network call becomes a parameter saying how it went:

- `Reply`: `Ok(value)` or `Err`, for the client's `fetch`;
- `Outcome`: `Answered`, `Failed` or `Thrown`, for a store call.

Modules:

- `Rows` holds the shared types. It also defines JavaScript truthiness of nullable numbers and strings, and the order-preserving `Filter` that a store `select` performs.
- `Decimal` covers `Number.prototype.toString` for integers, `padStart(2, '0')`, and reading the digits back.
- `TasksRoute` holds the `POST` and `GET` handlers. `POST` validates the name, inserts the row and maps the outcome to a status and body. `GET` either selects ongoing rows or applies the date-window filters, then orders the rows by start time, newest first.
- `Timer` covers the timer form:
  - the helpers `parseUTCDate` (its string step), elapsed seconds and `formatTime`;
  - the form's state, with the transitions `Initialise`, `Start`, `Stop`, `Submit` and `Tick`;
  - end-to-end lemmas that run the form against the `TasksRoute` handlers.
- `ClockSamples` covers `formatTime` on negative counts: the display starts with a minus sign and is never a clock text, and two sample displays are derived from general lemmas about negated fields.
- `Calendar` covers the calendar view: window load, drag-and-drop with revert, create-from-selection, and the task-to-event mapping.

Behaviours of the code the model keeps as written:

- `POST` answers 200 (the `NextResponse.json` default) on creation, not 201 Created.
- A task's end time can be cleared. Dropping an event that has no end writes `null` (`Calendar.DropCanReopenTask`).
- A failed start does not roll back `startTime`.
- The form schema rejects only the empty name. A whitespace-only name passes.
- The schema check also runs before stop. A running task whose name is empty could never be stopped.

## Model

| member | source | states |
|---|---|---|
| Rows.Filter | components/CalendarView.tsx:50-54 | a store select with filters keeps exactly the rows satisfying the filter, as a sub-multiset of the store |
| Decimal.IntToString | components/CalendarView.tsx:119 | JavaScript integer text: never empty, a leading minus exactly for negatives, and a negative number is the minus sign followed by the digits of its magnitude; plain digits otherwise |
| Decimal.IntRoundTrip | components/CalendarView.tsx:119 | the decimal text of an integer id parses back to that id |
| Decimal.IntToStringInjective | components/CalendarView.tsx:119 | two ids have the same text exactly when they are equal, so `eq('id', event.id)` picks out one id |
| Decimal.PadStart2 | components/timer/timer-form.tsx:123-125 | `padStart(2,'0')` gives at least two characters, keeps the original text as a suffix, and fills with zeros |
| Decimal.PaddedRoundTrip | components/timer/timer-form.tsx:123-125 | a padded non-negative field is all digits and reads back as the field's value |
| Decimal.NatToString | components/timer/timer-form.tsx:123 | the decimal text of a natural number is all digits, one character exactly below 10, two from 10 to 99, and at least three from 100, with no leading zero from 10 on |
| Timer.NormalizeUtc | components/timer/timer-form.tsx:33-35 | the result always ends in `Z`; text already ending in `Z` is unchanged; otherwise exactly one `Z` is appended |
| Timer.NormalizeUtcIdempotent | components/timer/timer-form.tsx:33-35 | normalising twice equals normalising once, and the input is a prefix of the result |
| Timer.FloorDiv | components/timer/timer-form.tsx:120 | `Math.floor(a / b)` for positive `b` is the unique `q` with `q*b <= a < q*b + b` |
| Timer.JsRem | components/timer/timer-form.tsx:121-122 | JavaScript's `%` with a positive divisor: in `[0, b)` for a non-negative dividend, in `(-b, 0]` for a negative one, and the dividend minus the remainder is a multiple of the divisor |
| Timer.Elapsed | components/timer/timer-form.tsx:78-80 | elapsed seconds is the floor of the millisecond difference over 1000, and is non-negative when `now >= start` |
| Timer.ElapsedMonotone | components/timer/timer-form.tsx:105-107 | elapsed seconds never decrease as the clock advances |
| Timer.ClockFields | components/timer/timer-form.tsx:119-122 | for `t >= 0`, the fields are hours ≥ 0, minutes and seconds in [0,60), with `h*3600 + m*60 + s = t`; for `t < 0`, hours are negative, minutes in [-60,0] and seconds in (-60,0] |
| Timer.PaddedClockText | components/timer/timer-form.tsx:123-125 | minutes and seconds below 60 and any hours, padded and joined by colons, make `digits:dd:dd` text that reads back as their value, 8 characters exactly when hours are below 100 |
| Timer.FormatTime | components/timer/timer-form.tsx:119-125 | the display has at least 8 characters; for `t >= 0` it is the zero-padded hours, minutes and seconds split joined by colons (so minutes and seconds show below 60), a `digits:dd:dd` text that reads back as `t` |
| Timer.FormatTimeWidth | components/timer/timer-form.tsx:119-125 | for `t >= 0`, the display is 8 characters exactly when `t < 360000` |
| Timer.NegativeDisplayMisreads | components/timer/timer-form.tsx:119-122 | for `-3600 < t < 0` not a whole minute, the displayed fields are worth `t - 3660`, not `t`: a negative count does not read back |
| ClockSamples.NegativeNotClock | components/timer/timer-form.tsx:119-125 | a negative count is displayed with a leading minus sign and never as a valid `digits:dd:dd` clock text |
| ClockSamples.NegatedDigit | components/timer/timer-form.tsx:123-125 | a field from -1 to -9 shows as a minus sign and its digit, with no zero padding |
| ClockSamples.NegatedTwoDigits | components/timer/timer-form.tsx:123-125 | a field from -10 to -99 shows as a minus sign and its two digits |
| ClockSamples.FormatTimeNegative | components/timer/timer-form.tsx:119-125 | examples: each field carries its own minus sign and minutes can show `-60` (`-5` shows as `-1:-1:-5`, `-3599` as `-1:-60:-59`) |
| Timer.Initialise | components/timer/timer-form.tsx:55-95 | loading always ends; a failed or empty query changes nothing else; otherwise the form runs with the first row's id, name and start, and shows its elapsed seconds |
| Timer.InitialiseCoherent | components/timer/timer-form.tsx:63-93 | from the mount state, the timer runs exactly when the query returned rows; when idle it shows 0 with no task id |
| Timer.InitialiseAdoptsLatestOngoing | components/timer/timer-form.tsx:57-63 | through the handler's ongoing query, the adopted task is an ongoing stored task with the latest start; the timer runs exactly when an ongoing task exists |
| Timer.Start | components/timer/timer-form.tsx:129-157 | `startTime` becomes `now` on both paths; success runs the timer with the returned id and time 0; failure keeps it idle with the id and time unchanged |
| Timer.Stop | components/timer/timer-form.tsx:158-188 | with a truthy id and a successful request the form goes idle, with no id, no start, an empty name and time 0; otherwise nothing changes |
| Timer.NameValid | components/timer/timer-form.tsx:19-21 | the form accepts a name exactly when it is truthy, the condition the `POST` handler checks |
| Timer.Submit | components/timer/timer-form.tsx:128-203 | the form submits through `handleSubmit`, so the schema of lines 19-21 runs first: a name shorter than one character blocks both branches; otherwise it starts when idle and stops when running |
| Timer.Tick | components/timer/timer-form.tsx:103-108 | while running with a truthy `startTime`, only `time` changes, to the floor of the seconds since `startTime`; otherwise nothing changes |
| Timer.TickIgnoresPreviousTime | components/timer/timer-form.tsx:104-108 | a tick's result does not depend on the previously displayed time |
| Timer.TickCountsSecondsSinceStart | components/timer/timer-form.tsx:131-154 | after a successful start at a non-zero instant, a tick n seconds later (plus under one second) shows exactly n |
| Timer.BlankNameStarts | components/timer/timer-form.tsx:19-21 | the name check does not trim, so a one-space name starts a task |
| Timer.NoTickAtEpochStart | components/timer/timer-form.tsx:103 | a `startTime` of 0 is falsy, so no tick changes the state |
| Timer.ZeroIdCannotStop | components/timer/timer-form.tsx:160 | a running timer with task id 0 is not changed by submitting |
| Timer.TransitionsPreserveCoherent | components/timer/timer-form.tsx:128-188 | submit and tick preserve the invariant: running implies an id and a start; idle implies time 0 and no id |
| Timer.NameFixedWhileRunning | components/timer/timer-form.tsx:214 | the input is disabled while running, and no transition that keeps the timer running (submit or tick) changes the task name |
| Timer.CreatedRow | components/timer/timer-form.tsx:146-150 | the start branch gets a row exactly when the response is ok (and carries a row), and then it gets that row |
| Timer.CreatedRowIffInserted | components/timer/timer-form.tsx:135-150 | through the `POST` handler, the start branch gets a row exactly when the store gained one, and it is the inserted row |
| Timer.FetchedRows | components/timer/timer-form.tsx:56-62 | `fetchOngoingTask` gets rows exactly when the response is ok and its body is a list, and then it gets that list |
| Timer.FetchedRowsIffAnswered | components/timer/timer-form.tsx:56-62 | through the `GET` handler, `fetchOngoingTask` gets rows exactly when the store query was answered, and they are the handler's rows |
| Timer.StartThroughRoute | components/timer/timer-form.tsx:135-153 | a name that passes the form schema passes the handler too; either the store gains the new ongoing row and the timer runs with its id, or the store is unchanged and the timer stays idle |
| Timer.ReloadRestoresRunning | components/timer/timer-form.tsx:57-88 | reloading after a start, with no other task ongoing, restores the same id, name and start, and the time a tick would show |
| TasksRoute.Post | app/api/tasks/route.ts:8-50 | an unreadable body gives 500 "Internal server error"; a falsy name gives 400; a store error gives 500 "Failed to create task"; a thrown error gives 500 "Internal server error"; no insert in those cases; success appends one ongoing row and answers 200 with it |
| TasksRoute.PostStatusIffInserted | app/api/tasks/route.ts:13-48 | the status is 200 exactly when a row was inserted; every other answer is 400 or 500 with an error body and the store unchanged |
| TasksRoute.Keeps | app/api/tasks/route.ts:63-74 | with `ongoing` exactly `true` a row is kept exactly when it has no end; otherwise an `end` bound drops rows without an end; with no parameters every row is kept |
| TasksRoute.InsertNewestFirst | app/api/tasks/route.ts:76 | inserting into a newest-first list keeps it newest-first and adds exactly one copy of the row |
| TasksRoute.SortNewestFirst | app/api/tasks/route.ts:76 | the ordering step yields a newest-first permutation of its input |
| TasksRoute.Get | app/api/tasks/route.ts:52-95 | an answered query gives 200 with a newest-first permutation of exactly the matching rows; a store error gives 500 "Failed to fetch tasks"; a thrown error gives 500 "Internal server error" |
| TasksRoute.OngoingIgnoresWindow | app/api/tasks/route.ts:63-65 | with `ongoing=true` the `start` and `end` parameters make no difference |
| TasksRoute.OtherOngoingTextIgnored | app/api/tasks/route.ts:63-74 | any `ongoing` value other than exactly `true` behaves as if it were absent |
| TasksRoute.SingleMatch | app/api/tasks/route.ts:61-87 | when exactly one row matches, the answer is that row alone |
| TasksRoute.PostThenOngoing | app/api/tasks/route.ts:22-31 | after a successful insert into a store with no ongoing task, the ongoing query returns exactly the new row |
| Calendar.InWindow | components/CalendarView.tsx:53-54 | a window with its end before its start keeps nothing; a one-instant window keeps exactly the tasks starting at that instant |
| Calendar.FirstLoadFromOpened | components/CalendarView.tsx:45-63 | the view mounts loading with an empty list; the first load ends loading on every path, brings exactly the stored tasks starting inside the window, and otherwise leaves the list empty |
| Calendar.LoadWindow | components/CalendarView.tsx:48-63 | loading ends on every path; rows give exactly the stored tasks whose start is inside both bounds; null data gives an empty list; failure keeps the list |
| Calendar.LoadReplaces | components/CalendarView.tsx:57 | a load that does not fail replaces the list: the previous list has no influence |
| Calendar.RouteWindowWithinCalendarWindow | app/api/tasks/route.ts:68-73 | for tasks ending no earlier than they start, each task the handler's window keeps is also in the calendar's window |
| Calendar.CalendarWindowKeepsMore | components/CalendarView.tsx:53-54 | the calendar's window also shows ongoing tasks and tasks ending after the window, which the handler's window drops |
| Calendar.ToEvent | components/CalendarView.tsx:118-126 | the event id reads back as the task id; title and bounds are the task's name, start and end; the label's start is the clock text of the start, its end the clock text of the end for a finished task, and "Ongoing" exactly for an ongoing task or a clock text "Ongoing" |
| Calendar.ToEvents | components/CalendarView.tsx:118-128 | one event per task, in the same order |
| Calendar.EventsDescribeTasks | components/CalendarView.tsx:118-126 | the event id parses back to the task id; the title is the name; the end is absent exactly for ongoing tasks; the label's end is "Ongoing" for them, and only for them when the clock text is never "Ongoing" |
| Calendar.UpdateBounds | components/CalendarView.tsx:81-87 | only rows whose id text equals the event id get the new start and end; all other rows are unchanged |
| Calendar.EventDrop | components/CalendarView.tsx:78-94 | success writes the new bounds and shows them; failure leaves the store unchanged and shows the pre-drop bounds |
| Calendar.DropOfTaskEvent | components/CalendarView.tsx:81-87 | dropping a task's event rewrites exactly the rows with that task's id, and keeps every id and name |
| Calendar.DropThenReload | components/CalendarView.tsx:81-87 | after a successful drop, reloading a window that contains the new start shows the task with its new bounds |
| Calendar.DropCanReopenTask | components/CalendarView.tsx:85 | dropping onto a slot with no end clears a finished task's end time |
| Calendar.DateSelect | components/CalendarView.tsx:96-116 | a cancelled or empty name, or a failed insert, changes neither the store nor the list; success appends the new finished row to both |
| Calendar.DateSelectAppendsEvent | components/CalendarView.tsx:112 | a successful selection adds one event at the end, leaves the earlier events as they were, and the new event carries the new id, the name and the selection's bounds |

## Left out

- Network and storage: `fetch`, the store client, JSON (de)serialisation and URL parsing. Each call is an outcome parameter; the store is a sequence of rows.
- `PostRequest`: only a string or missing/`null` `name` and an integer `start_time` are modelled. Other JSON values (numbers, booleans) and a missing `start_time` are not.
- `GetQuery`: `start` and `end` are integers, with an empty parameter counted as absent. The timestamp text behind them is not modelled.
- Date handling: `new Date(...)` parsing, `getTime`, `toISOString` and `toLocaleTimeString`. Timestamps are integer milliseconds. `Timer.NormalizeUtc` models only the string step of `parseUTCDate`. The calendar's clock text is an opaque `clock` function parameter. The calendar builds its dates with `new Date(...)` directly (components/CalendarView.tsx:121-125), without the step that appends `Z` in components/timer/timer-form.tsx:35. So a stored timestamp without a zone is read as local time by the calendar and as UTC by the timer. Integer milliseconds cannot express that difference.
- Tie order in `TasksRoute.Get`: the database leaves the order of rows with equal start times unspecified. The model fixes one order; its contract states only newest-first order and permutation.
- The window `select` in `Calendar.LoadWindow` has no ordering, so the model keeps store order.
- Scheduling: `setInterval`, React effects, async interleaving and a second click while a request is in flight. Only the per-tick state update is modelled.
- The `PUT /api/tasks/[id]` handler is not part of this model. The stop branch receives its answer as a `Reply`.
- Framework internals: react-hook-form and zod, except the length ≥ 1 rule. FullCalendar's layout, selection and resizing, which this code does not persist.
- Calendar state: the `tasks` list is neither read nor written by `Calendar.EventDrop`. That is how the view is written: a drop changes only the store and the shown event.
- Number text: `Decimal.IntToString` models `toString` for integers written in plain decimal. Exponent notation for magnitudes of 1e21 and above is not modelled.
- Pages and styling: `MiniCalendar`, the calendar page, the home page and `next.config.js` are UI composition or build configuration.
- Timer.CreatedRow: an ok response whose body is not a row is read as an error, where the source would go on with `task.id` undefined and run the timer. The `POST` handler never answers 200 without a row (`TasksRoute.Post`), so through it the two agree (`Timer.CreatedRowIffInserted`).
- Logging: `console.log` and `console.error`.

=== FILE: calendar.dfy ===
/** The calendar view: it loads the tasks of the visible window, persists
    dragged events, creates tasks from a selected range, and maps tasks to
    calendar events. The view talks to the row store directly (not through
    the `/api/tasks` handlers); each store call's outcome is a parameter. */
module Calendar {
  import opened Rows
  import opened Decimal
  import TasksRoute

  /** The view's state: the `tasks` list and the `loading` flag. */
  datatype CalendarState = CalendarState(tasks: seq<Task>, loading: bool)

  /** The state at mount. */
  function Opened(): CalendarState {
    CalendarState([], true)
  }

  /** The window filter of `fetchTasks`: start time within both bounds, inclusive. */
  predicate InWindow(t: Task, start: int, end: int)
    ensures InWindow(t, start, end) ==> start <= end
    ensures start == end ==> (InWindow(t, start, end) <==> t.start == start)
  {
    start <= t.start <= end
  }

  /** What the window `select` produced: rows, a `null` data value, or an error
      (a returned error and a thrown one are handled alike). */
  datatype LoadOutcome = Loaded | NullData | LoadFailed

  /** `fetchTasks(start, end)`: replace the list with the rows in the window;
      keep it on failure; leave the loading state on every path. */
  function LoadWindow(s: CalendarState, store: seq<Task>, start: int, end: int, outcome: LoadOutcome): (r: CalendarState)
    ensures !r.loading
    ensures outcome.Loaded? ==>
      && (forall t :: t in r.tasks <==> t in store && InWindow(t, start, end))
      && multiset(r.tasks) <= multiset(store)
    ensures outcome.NullData? ==> r.tasks == []
    ensures outcome.LoadFailed? ==> r.tasks == s.tasks
  {
    match outcome
    case Loaded => CalendarState(Filter(store, t => InWindow(t, start, end)), false)
    case NullData => CalendarState([], false)
    case LoadFailed => s.(loading := false)
  }

  /** A successful load replaces the list: the previous list has no influence. */
  lemma LoadReplaces(s1: CalendarState, s2: CalendarState, store: seq<Task>, start: int, end: int, outcome: LoadOutcome)
    requires !outcome.LoadFailed?
    ensures LoadWindow(s1, store, start, end, outcome) == LoadWindow(s2, store, start, end, outcome)
  {
  }

  /** The first load after mount: on every path loading ends, and a load
      that brings no rows leaves the list as empty as it was at mount. */
  lemma FirstLoadFromOpened(store: seq<Task>, start: int, end: int, outcome: LoadOutcome)
    ensures Opened().loading && Opened().tasks == []
    ensures var r := LoadWindow(Opened(), store, start, end, outcome);
      && !r.loading
      && (!outcome.Loaded? ==> r.tasks == [])
      && (outcome.Loaded? ==> forall t :: t in r.tasks <==> t in store && start <= t.start <= end)
  {
  }

  /** The handler's date window and the view's differ. For tasks that end no
      earlier than they start, every task the handler keeps for `[start, end]`
      the view keeps too. */
  lemma RouteWindowWithinCalendarWindow(t: Task, start: int, end: int)
    requires t.end.Some? ==> t.start <= t.end.value
    requires TasksRoute.Keeps(TasksRoute.GetQuery(Some(start), Some(end), None), t)
    ensures InWindow(t, start, end)
  {
  }

  /** The converse fails: the view shows ongoing tasks and tasks that run past
      the window's end, the handler drops both. */
  lemma CalendarWindowKeepsMore(t: Task, start: int, end: int)
    requires InWindow(t, start, end)
    requires t.end.None? || t.end.value > end
    ensures !TasksRoute.Keeps(TasksRoute.GetQuery(Some(start), Some(end), None), t)
  {
  }

  // ---------------------------------------------------------------------------
  // Events

  /** An event's time bounds; `end` is `None` for an event without an end. */
  datatype Bounds = Bounds(start: int, end: Option<int>)

  /** The event the view hands to the calendar for one task. `startLabel` and
      `endLabel` are the two halves of `timeDisplay`, shown joined by " - ". */
  datatype CalendarEvent = CalendarEvent(
    id: string, title: string, bounds: Bounds, startLabel: string, endLabel: string)

  /** One task as an event. `clock` stands for the locale time formatting.
      The id reads back as the task id; the end is absent exactly for an
      ongoing task, whose label end is "Ongoing". */
  function ToEvent(t: Task, clock: int -> string): (e: CalendarEvent)
    ensures IsIntText(e.id) && ParseInt(e.id) == t.id
    ensures e.title == t.name && e.bounds == Bounds(t.start, t.end)
    ensures e.startLabel == clock(t.start)
    ensures e.endLabel == "Ongoing" <==> t.end.None? || clock(t.end.value) == "Ongoing"
    ensures t.end.Some? ==> e.endLabel == clock(t.end.value)
  {
    IntRoundTrip(t.id);
    CalendarEvent(
      IntToString(t.id), t.name, Bounds(t.start, t.end), clock(t.start),
      if t.end.Some? then clock(t.end.value) else "Ongoing")
  }

  /** `tasks.map(...)`: one event per task, in the same order. */
  function ToEvents(tasks: seq<Task>, clock: int -> string): (r: seq<CalendarEvent>)
    ensures |r| == |tasks|
    ensures forall i :: 0 <= i < |r| ==> r[i] == ToEvent(tasks[i], clock)
  {
    seq(|tasks|, i requires 0 <= i < |tasks| => ToEvent(tasks[i], clock))
  }

  /** What each event says about its task: the id reads back as the task id,
      the title is the name, the end is absent exactly for an ongoing task,
      and (when the clock never prints "Ongoing") the label's end part is
      "Ongoing" exactly for an ongoing task. */
  lemma EventsDescribeTasks(tasks: seq<Task>, clock: int -> string, i: int)
    requires 0 <= i < |tasks|
    ensures var e := ToEvents(tasks, clock)[i];
      && IsIntText(e.id) && ParseInt(e.id) == tasks[i].id
      && e.title == tasks[i].name
      && e.bounds.start == tasks[i].start
      && (e.bounds.end.None? <==> tasks[i].end.None?)
      && (tasks[i].end.None? ==> e.endLabel == "Ongoing")
      && (tasks[i].end.Some? && clock(tasks[i].end.value) != "Ongoing" ==> e.endLabel != "Ongoing")
  {
    IntRoundTrip(tasks[i].id);
  }

  // ---------------------------------------------------------------------------
  // Drag and drop

  /** A drop: the dragged event's id, its bounds before, and its bounds after. */
  datatype Drop = Drop(eventId: string, before: Bounds, after: Bounds)

  /** The store after a drop, and the bounds the calendar shows for the event. */
  datatype DropResult = DropResult(store: seq<Task>, shown: Bounds)

  /** `update(...).eq('id', event.id)`: rewrite the bounds of every row whose id
      text is `eventId`. */
  function UpdateBounds(store: seq<Task>, eventId: string, b: Bounds): (r: seq<Task>)
    ensures |r| == |store|
    ensures forall i :: 0 <= i < |r| ==>
      if IntToString(store[i].id) == eventId
      then r[i] == store[i].(start := b.start, end := b.end)
      else r[i] == store[i]
  {
    seq(|store|, i requires 0 <= i < |store| =>
      if IntToString(store[i].id) == eventId then store[i].(start := b.start, end := b.end) else store[i])
  }

  /** `handleEventDrop`: persist the new bounds; on failure, revert the event
      to its old bounds and leave the store alone. The `tasks` list is not
      touched on either path. */
  function EventDrop(store: seq<Task>, drop: Drop, outcome: Outcome): (r: DropResult)
    ensures outcome.Answered? ==> r.shown == drop.after && r.store == UpdateBounds(store, drop.eventId, drop.after)
    ensures !outcome.Answered? ==> r == DropResult(store, drop.before)
  {
    if outcome.Answered? then DropResult(UpdateBounds(store, drop.eventId, drop.after), drop.after)
    else DropResult(store, drop.before)
  }

  /** Dropping the event of task `t` rewrites exactly the rows carrying `t`'s
      id, with the ids, names and the number of rows unchanged. */
  lemma DropOfTaskEvent(store: seq<Task>, t: Task, clock: int -> string, after: Bounds)
    ensures var e := ToEvent(t, clock);
      var r := EventDrop(store, Drop(e.id, e.bounds, after), Answered);
      && |r.store| == |store|
      && forall i :: 0 <= i < |store| ==>
           && r.store[i].id == store[i].id && r.store[i].name == store[i].name
           && (store[i].id == t.id ==> Bounds(r.store[i].start, r.store[i].end) == after)
           && (store[i].id != t.id ==> r.store[i] == store[i])
  {
    forall i | 0 <= i < |store|
      ensures IntToString(store[i].id) == IntToString(t.id) <==> store[i].id == t.id
    {
      IntToStringInjective(store[i].id, t.id);
    }
  }

  /** After a successful drop, loading a window that holds the new start shows
      the moved task with its new bounds. */
  lemma DropThenReload(s: CalendarState, store: seq<Task>, t: Task, clock: int -> string,
                       after: Bounds, start: int, end: int)
    requires t in store
    requires start <= after.start <= end
    ensures var e := ToEvent(t, clock);
      var r := EventDrop(store, Drop(e.id, e.bounds, after), Answered);
      t.(start := after.start, end := after.end) in LoadWindow(s, r.store, start, end, Loaded).tasks
  {
  }

  /** A drop onto a slot without an end clears a finished task's end time: the
      task becomes ongoing again in the store. */
  lemma DropCanReopenTask(store: seq<Task>, t: Task, clock: int -> string, newStart: int)
    requires t in store && t.end.Some?
    ensures var e := ToEvent(t, clock);
      var r := EventDrop(store, Drop(e.id, e.bounds, Bounds(newStart, None)), Answered);
      t.(start := newStart, end := None) in r.store
  {
  }

  // ---------------------------------------------------------------------------
  // Creating from a selection

  /** A selected range on the calendar. */
  datatype Selection = Selection(start: int, end: int)

  /** `handleDateSelect`: a cancelled or empty prompt aborts; otherwise insert a
      finished task spanning the selection and, on success, append the stored
      row (with its store-assigned `newId`) to the list. */
  function DateSelect(store: seq<Task>, s: CalendarState, name: Option<string>, sel: Selection,
                      outcome: Outcome, newId: int): (r: (seq<Task>, CalendarState))
    ensures !TruthyText(name) || !outcome.Answered? ==> r == (store, s)
    ensures TruthyText(name) && outcome.Answered? ==>
      var row := Task(newId, name.value, sel.start, Some(sel.end));
      && r.0 == store + [row]
      && r.1.tasks == s.tasks + [row]
      && r.1.loading == s.loading
  {
    if !TruthyText(name) then (store, s)
    else if !outcome.Answered? then (store, s)
    else
      var row := Task(newId, name.value, sel.start, Some(sel.end));
      (store + [row], s.(tasks := s.tasks + [row]))
  }

  /** A successful selection grows the list by one event, leaves the earlier
      events as they were, and the new last event is the created task. */
  lemma DateSelectAppendsEvent(store: seq<Task>, s: CalendarState, name: string, sel: Selection,
                               newId: int, clock: int -> string)
    requires |name| > 0
    ensures var r := DateSelect(store, s, Some(name), sel, Answered, newId);
      var before := ToEvents(s.tasks, clock);
      var after := ToEvents(r.1.tasks, clock);
      && |after| == |before| + 1
      && after[..|before|] == before
      && after[|before|].id == IntToString(newId)
      && after[|before|].title == name
      && after[|before|].bounds == Bounds(sel.start, Some(sel.end))
  {
  }
}

=== FILE: clock_samples.dfy ===
/** The timer's display of negative counts, as `formatTime` computes it: it
    starts with a minus sign and is never a clock text; each non-zero field
    carries its own minus sign, and minutes can show as -60. A negative count
    arises when the start time lies in the future of the local clock. */
module ClockSamples {
  import opened Decimal
  import opened Timer

  /** Text starting with a minus sign is not a clock text. */
  lemma SignedNotClock(text: string)
    requires |text| >= 8 && text[0] == '-'
    ensures !IsClockText(text)
  {
    assert text[..|text| - 6][0] == '-';
  }

  /** A negative count is displayed with a leading minus sign and is never a
      clock text: the hours field is not made of digits. */
  lemma NegativeNotClock(t: int)
    requires t < 0
    ensures FormatTime(t)[0] == '-'
    ensures !IsClockText(FormatTime(t))
  {
    var (h, m, s) := ClockFields(t);
    NegativeDisplay(t, h, m, s);
    var hh := PadStart2(IntToString(h));
    assert hh == IntToString(h);
    assert FormatTime(t)[0] == hh[0];
    SignedNotClock(FormatTime(t));
  }

  /** A negated one-digit field is shown as a minus sign and the digit. */
  lemma NegatedDigit(d: int)
    requires 1 <= d < 10
    ensures PadStart2(IntToString(-d)) == ['-', DigitChar(d)]
  {
  }

  /** A negated two-digit field is shown as a minus sign and both digits. */
  lemma NegatedTwoDigits(n: int)
    requires 10 <= n < 100
    ensures PadStart2(IntToString(-n)) == ['-', DigitChar(n / 10), DigitChar(n % 10)]
  {
    assert NatToString(n) == NatToString(n / 10) + [DigitChar(n % 10)];
  }

  /** The fields of five seconds before the start. */
  lemma FiveSecondsBeforeFields()
    ensures ClockFields(-5) == (-1, -1, -5)
  {
  }

  /** The padded texts of the fields -1 and -5. */
  lemma FiveSecondsTexts()
    ensures PadStart2(IntToString(-1)) == "-1"
    ensures PadStart2(IntToString(-5)) == "-5"
  {
    NegatedDigit(1);
    NegatedDigit(5);
    assert DigitChar(1) == '1' && DigitChar(5) == '5';
  }

  /** Five seconds before the start shows as `-1:-1:-5`. */
  lemma FiveSecondsBefore()
    ensures FormatTime(-5) == "-1" + ":" + "-1" + ":" + "-5"
  {
    FiveSecondsBeforeFields();
    NegativeDisplay(-5, -1, -1, -5);
    FiveSecondsTexts();
  }

  /** The fields of one second short of an hour before the start. */
  lemma AlmostAnHourBeforeFields()
    ensures ClockFields(-3599) == (-1, -60, -59)
  {
  }

  /** The padded texts of the fields -1, -60 and -59. */
  lemma AlmostAnHourTexts()
    ensures PadStart2(IntToString(-1)) == "-1"
    ensures PadStart2(IntToString(-60)) == "-60"
    ensures PadStart2(IntToString(-59)) == "-59"
  {
    NegatedDigit(1);
    NegatedTwoDigits(60);
    NegatedTwoDigits(59);
    assert DigitChar(1) == '1' && DigitChar(6) == '6' && DigitChar(0) == '0';
    assert DigitChar(5) == '5' && DigitChar(9) == '9';
  }

  /** One second short of an hour before the start shows as `-1:-60:-59`. */
  lemma AlmostAnHourBefore()
    ensures FormatTime(-3599) == "-1" + ":" + "-60" + ":" + "-59"
  {
    AlmostAnHourBeforeFields();
    NegativeDisplay(-3599, -1, -60, -59);
    AlmostAnHourTexts();
  }

  /** Both samples together. */
  lemma FormatTimeNegative()
    ensures FormatTime(-5) == "-1" + ":" + "-1" + ":" + "-5"
    ensures FormatTime(-3599) == "-1" + ":" + "-60" + ":" + "-59"
  {
    FiveSecondsBefore();
    AlmostAnHourBefore();
  }
}

=== FILE: decimal.dfy ===
/** Decimal text of integers as JavaScript's `Number.prototype.toString` writes
    it for safe integers, `String.prototype.padStart(2, '0')`, and the reading
    of such text back into a number. The timer's clock display and the
    calendar's event ids are both built from these. */
module Decimal {

  predicate IsDigit(c: char) {
    '0' <= c <= '9'
  }

  predicate AllDigits(s: string) {
    forall i :: 0 <= i < |s| ==> IsDigit(s[i])
  }

  function DigitChar(d: nat): (c: char)
    requires d < 10
    ensures IsDigit(c)
  {
    ('0' as int + d) as char
  }

  function DigitValue(c: char): nat
    requires IsDigit(c)
  {
    c as int - '0' as int
  }

  /** Decimal digits of `n`, most significant first, without leading zeros. */
  function NatToString(n: nat): (s: string)
    ensures AllDigits(s)
    ensures |s| >= 1
    ensures n < 10 <==> |s| == 1
    ensures 10 <= n < 100 ==> |s| == 2
    ensures n >= 100 ==> |s| >= 3
    ensures n >= 10 ==> s[0] != '0'
  {
    if n < 10 then [DigitChar(n)] else NatToString(n / 10) + [DigitChar(n % 10)]
  }

  /** The number a string of decimal digits denotes (leading zeros allowed). */
  function DigitsValue(s: string): nat
    requires AllDigits(s)
  {
    if |s| == 0 then 0 else DigitsValue(s[..|s| - 1]) * 10 + DigitValue(s[|s| - 1])
  }

  /** Reading the digits of `n` gives `n` back. */
  lemma {:induction false} NatRoundTrip(n: nat)
    ensures DigitsValue(NatToString(n)) == n
  {
    if n >= 10 {
      var s := NatToString(n);
      assert s[..|s| - 1] == NatToString(n / 10);
      NatRoundTrip(n / 10);
    }
  }

  /** A leading zero does not change the value of a digit string. */
  lemma {:induction false} LeadingZero(s: string)
    requires AllDigits(s)
    ensures AllDigits("0" + s)
    ensures DigitsValue("0" + s) == DigitsValue(s)
  {
    if |s| > 0 {
      assert ("0" + s)[..|s|] == "0" + s[..|s| - 1];
      LeadingZero(s[..|s| - 1]);
    }
  }

  /** JavaScript's `toString()` of an integer: a minus sign before negative values. */
  function IntToString(i: int): (s: string)
    ensures |s| >= 1
    ensures i >= 0 ==> s == NatToString(i)
    ensures i < 0 <==> s[0] == '-'
    ensures i < 0 ==> s == "-" + NatToString(-i)
  {
    if i < 0 then "-" + NatToString(-i) else NatToString(i)
  }

  /** Text that `IntToString` can produce the shape of: optional minus, then digits. */
  predicate IsIntText(s: string) {
    if |s| >= 1 && s[0] == '-' then |s| >= 2 && AllDigits(s[1..]) else |s| >= 1 && AllDigits(s)
  }

  function ParseInt(s: string): int
    requires IsIntText(s)
  {
    if s[0] == '-' then 0 - DigitsValue(s[1..]) as int else DigitsValue(s) as int
  }

  /** Parsing the text of an integer gives the integer back. */
  lemma IntRoundTrip(i: int)
    ensures IsIntText(IntToString(i))
    ensures ParseInt(IntToString(i)) == i
  {
    var s := IntToString(i);
    if i < 0 {
      assert s[1..] == NatToString(-i);
      NatRoundTrip(-i);
    } else {
      assert IsDigit(s[0]);
      NatRoundTrip(i);
    }
  }

  /** Distinct integers have distinct texts. */
  lemma IntToStringInjective(i: int, j: int)
    ensures IntToString(i) == IntToString(j) <==> i == j
  {
    IntRoundTrip(i);
    IntRoundTrip(j);
  }

  /** `padStart(2, '0')`: prepend zeros until the text is at least two long. */
  function PadStart2(s: string): (r: string)
    ensures |r| == if |s| >= 2 then |s| else 2
    ensures r[|r| - |s|..] == s
    ensures forall i :: 0 <= i < |r| - |s| ==> r[i] == '0'
  {
    if |s| >= 2 then s else if |s| == 1 then "0" + s else "00"
  }

  /** The padded text of a natural number still reads back as that number. */
  lemma PaddedRoundTrip(n: nat)
    ensures AllDigits(PadStart2(NatToString(n)))
    ensures DigitsValue(PadStart2(NatToString(n))) == n
  {
    var s := NatToString(n);
    NatRoundTrip(n);
    if |s| < 2 {
      LeadingZero(s);
      assert PadStart2(s) == "0" + s;
    }
  }
}

=== FILE: route.dfy ===
/** The `/api/tasks` request handlers: `POST` validates a task name and inserts a
    row, `GET` selects rows (ongoing ones, or a date window) ordered by start
    time, newest first. The store is a sequence of rows; each store call's
    success or failure is a parameter. */
module TasksRoute {
  import opened Rows

  /** A JSON response body. */
  datatype Body = ErrorBody(error: string) | RowBody(row: Task) | RowsBody(rows: seq<Task>)

  /** A response: HTTP status and body. `NextResponse.json` without a status gives 200. */
  datatype Response = Response(status: int, body: Body)

  /** A `POST` body: either `request.json()` threw, or it yielded a `name`
      (`None` when missing or `null`) and a `start_time`. */
  datatype PostRequest = Unreadable | PostBody(name: Option<string>, startTime: int)

  /** The search parameters of a `GET`. `start`/`end` are `None` when missing or
      empty (both are falsy); `ongoing` is the raw text, if any. */
  datatype GetQuery = GetQuery(start: Option<int>, end: Option<int>, ongoing: Option<string>)

  const InternalError := Response(500, ErrorBody("Internal server error"))
  const NameRequired := Response(400, ErrorBody("Task name is required"))
  const CreateFailed := Response(500, ErrorBody("Failed to create task"))
  const FetchFailed := Response(500, ErrorBody("Failed to fetch tasks"))

  /** Handles `POST /api/tasks` against `store`. On an answered insert the store
      assigns `newId`. Returns the response and the store afterwards. */
  function Post(store: seq<Task>, req: PostRequest, outcome: Outcome, newId: int): (r: (Response, seq<Task>))
    // an unreadable body is an exception: 500, nothing stored
    ensures req.Unreadable? ==> r == (InternalError, store)
    // a falsy name is rejected before the store is touched
    ensures req.PostBody? && !TruthyText(req.name) ==> r == (NameRequired, store)
    // a store error and a thrown exception give different 500 messages and no insert
    ensures req.PostBody? && TruthyText(req.name) && outcome.Failed? ==> r == (CreateFailed, store)
    ensures req.PostBody? && TruthyText(req.name) && outcome.Thrown? ==> r == (InternalError, store)
    // an answered insert appends exactly one ongoing row with the given name and start
    ensures req.PostBody? && TruthyText(req.name) && outcome.Answered? ==>
      && |r.1| == |store| + 1
      && r.1[..|store|] == store
      && r.1[|store|] == Task(newId, req.name.value, req.startTime, None)
      && r.0 == Response(200, RowBody(r.1[|store|]))
  {
    match req
    case Unreadable => (InternalError, store)
    case PostBody(name, startTime) =>
      if !TruthyText(name) then (NameRequired, store)
      else
        match outcome
        case Failed => (CreateFailed, store)
        case Thrown => (InternalError, store)
        case Answered =>
          var row := Task(newId, name.value, startTime, None);
          (Response(200, RowBody(row)), store + [row])
  }

  /** A `POST` answers 200 exactly when it inserted a row, and every other
      answer is 400 or 500. */
  lemma PostStatusIffInserted(store: seq<Task>, req: PostRequest, outcome: Outcome, newId: int)
    ensures var (resp, store') := Post(store, req, outcome, newId);
      && (resp.status == 200 <==> |store'| == |store| + 1)
      && (resp.status == 200 || resp.status == 400 || resp.status == 500)
      && (resp.status != 200 ==> store' == store && resp.body.ErrorBody?)
  {
  }

  /** Whether a row passes the `GET` filters. `ongoing` must be exactly `'true'`
      to select ongoing rows; otherwise each given bound adds a filter, and
      `end_time <= end` does not hold of a null `end_time` (SQL comparison). */
  predicate Keeps(q: GetQuery, t: Task)
    ensures q.ongoing == Some("true") ==> (Keeps(q, t) <==> t.end.None?)
    ensures q.ongoing != Some("true") && q.end.Some? && Keeps(q, t) ==> t.end.Some?
    ensures q == GetQuery(None, None, None) ==> Keeps(q, t)
  {
    if q.ongoing == Some("true") then t.end.None?
    else
      && (q.start.None? || t.start >= q.start.value)
      && (q.end.None? || (t.end.Some? && t.end.value <= q.end.value))
  }

  /** Rows ordered by start time, newest first. */
  predicate NewestFirst(s: seq<Task>) {
    forall i, j :: 0 <= i < j < |s| ==> s[i].start >= s[j].start
  }

  /** A row that started no earlier than the head of a newest-first list can
      be put in front of it. */
  lemma ConsNewestFirst(h: Task, s: seq<Task>)
    requires NewestFirst(s)
    requires |s| == 0 || h.start >= s[0].start
    ensures NewestFirst([h] + s)
  {
  }

  /** Places `x` into `s` before the first row that started no later than it. */
  function InsertNewestFirst(x: Task, s: seq<Task>): (r: seq<Task>)
    requires NewestFirst(s)
    ensures NewestFirst(r)
    ensures multiset(r) == multiset(s) + multiset{x}
    ensures r[0] == x || r[0] == s[0]
  {
    if |s| == 0 || x.start >= s[0].start then
      ConsNewestFirst(x, s);
      [x] + s
    else
      assert s == [s[0]] + s[1..];
      var rest := InsertNewestFirst(x, s[1..]);
      ConsNewestFirst(s[0], rest);
      [s[0]] + rest
  }

  /** Sequences with the same multiset have the same members. */
  lemma SameMembers(a: seq<Task>, b: seq<Task>)
    requires multiset(a) == multiset(b)
    ensures forall t :: t in a <==> t in b
  {
    forall t
      ensures t in a <==> t in b
    {
      assert t in a <==> t in multiset(a);
      assert t in b <==> t in multiset(b);
    }
  }

  /** `order('start_time', { ascending: false })`. */
  function SortNewestFirst(s: seq<Task>): (r: seq<Task>)
    ensures NewestFirst(r)
    ensures multiset(r) == multiset(s)
  {
    if |s| == 0 then []
    else
      assert s == [s[0]] + s[1..];
      InsertNewestFirst(s[0], SortNewestFirst(s[1..]))
  }

  /** Handles `GET /api/tasks`: the store is only read. */
  function Get(store: seq<Task>, q: GetQuery, outcome: Outcome): (r: Response)
    ensures outcome.Failed? ==> r == FetchFailed
    ensures outcome.Thrown? ==> r == InternalError
    // an answered query is a permutation of the matching rows, newest first
    ensures outcome.Answered? ==>
      && r.status == 200
      && r.body.RowsBody?
      && NewestFirst(r.body.rows)
      && multiset(r.body.rows) == multiset(Filter(store, t => Keeps(q, t)))
      && (forall t :: t in r.body.rows <==> t in store && Keeps(q, t))
  {
    match outcome
    case Failed => FetchFailed
    case Thrown => InternalError
    case Answered =>
      var rows := SortNewestFirst(Filter(store, t => Keeps(q, t)));
      SameMembers(rows, Filter(store, t => Keeps(q, t)));
      Response(200, RowsBody(rows))
  }

  /** With `ongoing=true` the date bounds are ignored. */
  lemma OngoingIgnoresWindow(store: seq<Task>, q1: GetQuery, q2: GetQuery, outcome: Outcome)
    requires q1.ongoing == Some("true") && q2.ongoing == Some("true")
    ensures Get(store, q1, outcome) == Get(store, q2, outcome)
  {
    FilterAgrees(store, t => Keeps(q1, t), t => Keeps(q2, t));
  }

  /** Any `ongoing` text other than exactly `'true'` behaves as if it were absent. */
  lemma OtherOngoingTextIgnored(store: seq<Task>, q: GetQuery, outcome: Outcome)
    requires q.ongoing != Some("true")
    ensures Get(store, q, outcome) == Get(store, q.(ongoing := None), outcome)
  {
    var q' := q.(ongoing := None);
    forall t | t in store
      ensures Keeps(q, t) == Keeps(q', t)
    {
    }
    FilterAgrees(store, t => Keeps(q, t), t => Keeps(q', t));
  }

  /** When exactly one row matches, an answered `GET` returns that row alone. */
  lemma SingleMatch(store: seq<Task>, q: GetQuery, row: Task)
    requires Filter(store, t => Keeps(q, t)) == [row]
    ensures Get(store, q, Answered) == Response(200, RowsBody([row]))
  {
    assert SortNewestFirst([row]) == InsertNewestFirst(row, SortNewestFirst([]));
  }

  /** Inserting a task and then asking for ongoing tasks, on a store with none
      ongoing, returns exactly that task. */
  lemma PostThenOngoing(store: seq<Task>, name: string, startTime: int, newId: int)
    requires |name| > 0
    requires forall t :: t in store ==> t.end.Some?
    ensures var store' := Post(store, PostBody(Some(name), startTime), Answered, newId).1;
      Get(store', GetQuery(None, None, Some("true")), Answered)
        == Response(200, RowsBody([Task(newId, name, startTime, None)]))
  {
    var q := GetQuery(None, None, Some("true"));
    var row := Task(newId, name, startTime, None);
    var store' := store + [row];
    assert Post(store, PostBody(Some(name), startTime), Answered, newId).1 == store';
    FilterAppend(store, [row], t => Keeps(q, t));
    assert Filter([row], t => Keeps(q, t)) == [row];
    SingleMatch(store', q, row);
  }
}

=== FILE: rows.dfy ===
/** The one entity of the task timer: a task row as the store keeps it, plus the
    small wrappers the handlers use to describe what the store or the network
    answered. Timestamps are integer milliseconds since the epoch. */
module Rows {

  /** A value that may be missing: `None` is JavaScript's `null` or `undefined`. */
  datatype Option<+T> = None | Some(value: T)

  /** A row of the `tasks` table. `end == None` means the task is ongoing. */
  datatype Task = Task(id: int, name: string, start: int, end: Option<int>)

  /** What a client-side `fetch` to the backend produced: a parsed body, or a
      failure (a non-ok response or a network error, both of which the client
      turns into a thrown error). */
  datatype Reply<+T> = Ok(value: T) | Err

  /** What a call into the row store produced: an answer, a returned `error`
      object, or a thrown exception. */
  datatype Outcome = Answered | Failed | Thrown

  /** JavaScript truthiness of a nullable number: `null` and `0` are falsy. */
  predicate Truthy(x: Option<int>) {
    x.Some? && x.value != 0
  }

  /** JavaScript truthiness of a nullable string: `null` and `''` are falsy. */
  predicate TruthyText(x: Option<string>) {
    x.Some? && |x.value| > 0
  }

  /** The rows of `s` that satisfy `keep`, in their original order: what a
      store `select` with filter predicates and no `order` clause returns. */
  function Filter(s: seq<Task>, keep: Task -> bool): (r: seq<Task>)
    ensures forall t :: t in r <==> t in s && keep(t)
    ensures forall i :: 0 <= i < |r| ==> keep(r[i])
    ensures multiset(r) <= multiset(s)
    ensures |r| <= |s|
  {
    if |s| == 0 then []
    else
      var rest := Filter(s[1..], keep);
      assert s == [s[0]] + s[1..];
      if keep(s[0]) then [s[0]] + rest else rest
  }

  /** Filtering with two predicates that agree on every row gives the same rows. */
  lemma {:induction false} FilterAgrees(s: seq<Task>, p: Task -> bool, q: Task -> bool)
    requires forall t :: t in s ==> p(t) == q(t)
    ensures Filter(s, p) == Filter(s, q)
  {
    if |s| > 0 {
      assert forall t :: t in s[1..] ==> t in s;
      FilterAgrees(s[1..], p, q);
    }
  }

  /** Filtering rows appended at the end filters each part separately. */
  lemma {:induction false} FilterAppend(s: seq<Task>, u: seq<Task>, keep: Task -> bool)
    ensures Filter(s + u, keep) == Filter(s, keep) + Filter(u, keep)
  {
    if |s| == 0 {
      assert s + u == u;
    } else {
      assert (s + u)[1..] == s[1..] + u;
      FilterAppend(s[1..], u, keep);
    }
  }
}

=== FILE: timer.dfy ===
/** The stopwatch form: pure helpers (UTC normalisation of stored timestamps,
    elapsed seconds, `HH:MM:SS` display), the form's React state, and its
    transitions — initialisation from the ongoing-task query, start/stop on
    submit, and the once-a-second tick. Each network call is a `Reply`
    parameter; the clock reading `now` is a parameter in milliseconds. */
module Timer {
  import opened Rows
  import opened Decimal
  import opened TasksRoute

  // ---------------------------------------------------------------------------
  // Pure helpers

  predicate EndsWithZ(s: string) {
    |s| > 0 && s[|s| - 1] == 'Z'
  }

  /** The string step of `parseUTCDate`: mark a timestamp as UTC by appending
      `Z` unless it already ends with one. */
  function NormalizeUtc(s: string): (r: string)
    ensures EndsWithZ(r)
    ensures EndsWithZ(s) ==> r == s
    ensures !EndsWithZ(s) ==> r == s + "Z"
  {
    if EndsWithZ(s) then s else s + "Z"
  }

  /** Normalising twice is normalising once. */
  lemma NormalizeUtcIdempotent(s: string)
    ensures NormalizeUtc(NormalizeUtc(s)) == NormalizeUtc(s)
    ensures NormalizeUtc(s)[..|s|] == s
  {
  }

  /** `Math.floor(a / b)` for a positive divisor. */
  function FloorDiv(a: int, b: int): (q: int)
    requires b > 0
    ensures q * b <= a < q * b + b
  {
    a / b
  }

  /** JavaScript's `a % b` for a positive divisor: the remainder takes the sign
      of the dividend and differs from it by a multiple of `b`. */
  function JsRem(a: int, b: int): (m: int)
    requires b > 0
    ensures a >= 0 ==> 0 <= m < b
    ensures a < 0 ==> -b < m <= 0
    ensures exists q :: a - m == q * b
  {
    if a >= 0 then
      assert a - a % b == (a / b) * b;
      a % b
    else
      assert a - -((-a) % b) == (-((-a) / b)) * b;
      -((-a) % b)
  }

  /** Whole seconds from `start` to `now`, rounded down:
      `Math.floor((now - start) / 1000)`. */
  function Elapsed(now: int, start: int): (e: int)
    ensures e * 1000 <= now - start < e * 1000 + 1000
    ensures now >= start ==> e >= 0
  {
    FloorDiv(now - start, 1000)
  }

  /** The elapsed count never goes backwards as the clock advances. */
  lemma ElapsedMonotone(start: int, now1: int, now2: int)
    requires now1 <= now2
    ensures Elapsed(now1, start) <= Elapsed(now2, start)
  {
  }

  /** The three fields `formatTime` computes: hours by floor division, minutes
      from the truncating remainder by 3600, seconds as the truncating
      remainder by 60. For a non-negative count they are its mixed-radix
      split; for a negative one every field is at most 0 and minutes can
      reach -60. */
  function ClockFields(t: int): (r: (int, int, int))
    ensures t >= 0 ==>
      && r.0 >= 0 && 0 <= r.1 < 60 && 0 <= r.2 < 60
      && r.0 * 3600 + r.1 * 60 + r.2 == t
    ensures t < 0 ==> r.0 < 0 && -60 <= r.1 <= 0 && -60 < r.2 <= 0
  {
    (FloorDiv(t, 3600), FloorDiv(JsRem(t, 3600), 60), JsRem(t, 60))
  }

  /** Text of the form `<digits>:<2 digits>:<2 digits>`. */
  predicate IsClockText(s: string) {
    && |s| >= 8
    && s[|s| - 6] == ':' && s[|s| - 3] == ':'
    && AllDigits(s[..|s| - 6]) && AllDigits(s[|s| - 5..|s| - 3]) && AllDigits(s[|s| - 2..])
  }

  /** The number of seconds a clock text denotes. */
  function ClockValue(s: string): int
    requires IsClockText(s)
  {
    DigitsValue(s[..|s| - 6]) * 3600 + DigitsValue(s[|s| - 5..|s| - 3]) * 60 + DigitsValue(s[|s| - 2..])
  }

  /** Three digit fields joined by colons form a clock text denoting their
      mixed-radix value. */
  lemma ClockLayout(hh: string, mm: string, ss: string)
    requires |hh| >= 2 && |mm| == 2 && |ss| == 2
    requires AllDigits(hh) && AllDigits(mm) && AllDigits(ss)
    ensures IsClockText(hh + ":" + mm + ":" + ss)
    ensures ClockValue(hh + ":" + mm + ":" + ss) == DigitsValue(hh) * 3600 + DigitsValue(mm) * 60 + DigitsValue(ss)
  {
    var text := hh + ":" + mm + ":" + ss;
    assert text[..|text| - 6] == hh;
    assert text[|text| - 5..|text| - 3] == mm;
    assert text[|text| - 2..] == ss;
  }

  /** Non-negative fields padded to two characters and joined by colons. */
  function ClockText(h: nat, m: nat, s: nat): string {
    PadStart2(NatToString(h)) + ":" + PadStart2(NatToString(m)) + ":" + PadStart2(NatToString(s))
  }

  /** With minutes and seconds below 60, the padded fields form a clock text
      that reads back as their value; it is eight characters exactly when the
      hours are below 100. */
  lemma PaddedClockText(h: nat, m: nat, s: nat)
    requires m < 60 && s < 60
    ensures IsClockText(ClockText(h, m, s))
    ensures ClockValue(ClockText(h, m, s)) == h * 3600 + m * 60 + s
    ensures |ClockText(h, m, s)| == 8 <==> h < 100
  {
    var hh, mm, ss := PadStart2(NatToString(h)), PadStart2(NatToString(m)), PadStart2(NatToString(s));
    PaddedRoundTrip(h);
    PaddedRoundTrip(m);
    PaddedRoundTrip(s);
    assert |mm| == 2 && |ss| == 2;
    assert |hh| == 2 <==> h < 100;
    ClockLayout(hh, mm, ss);
    assert ClockText(h, m, s) == hh + ":" + mm + ":" + ss;
  }

  /** `formatTime(timeInSeconds)`: each field's `toString()` padded to two
      characters, joined by colons. The display of a non-negative count is a
      clock text that reads back as the count. */
  function FormatTime(t: int): (r: string)
    ensures |r| >= 8
    ensures t >= 0 ==> IsClockText(r) && ClockValue(r) == t
    // and it is the padded split itself, so minutes and seconds show below 60
    ensures t >= 0 ==> var f := ClockFields(t); r == ClockText(f.0, f.1, f.2)
  {
    var (h, m, s) := ClockFields(t);
    if t >= 0 then
      PaddedClockText(h, m, s);
      ClockText(h, m, s)
    else
      PadStart2(IntToString(h)) + ":" + PadStart2(IntToString(m)) + ":" + PadStart2(IntToString(s))
  }

  /** For a non-negative count the hours field has two digits exactly below
      100 hours. */
  lemma HoursBelowHundred(t: int)
    requires t >= 0
    ensures t < 360000 <==> FloorDiv(t, 3600) < 100
  {
  }

  /** The display of a non-negative count is exactly eight characters below
      100 hours, and longer from there on. */
  lemma FormatTimeWidth(t: int)
    requires t >= 0
    ensures t < 360000 <==> |FormatTime(t)| == 8
  {
    var (h, m, s) := ClockFields(t);
    HoursBelowHundred(t);
    PaddedClockText(h, m, s);
  }

  /** A negative count within the first hour before the start, whose seconds
      part is non-zero, is displayed as fields worth 3660 seconds less than
      the count: the display does not read back as the count. */
  lemma NegativeDisplayMisreads(t: int)
    requires -3600 < t < 0 && t % 60 != 0
    ensures var (h, m, s) := ClockFields(t); h * 3600 + m * 60 + s == t - 3660
  {
    assert FloorDiv(t, 3600) == -1;
    assert JsRem(t, 3600) == t;
    assert JsRem(t, 60) == t % 60 - 60;
  }

  /** A negative count is displayed as its fields' `toString()`, each padded,
      minus signs included. */
  lemma NegativeDisplay(t: int, h: int, m: int, s: int)
    requires t < 0 && ClockFields(t) == (h, m, s)
    ensures FormatTime(t) == PadStart2(IntToString(h)) + ":" + PadStart2(IntToString(m)) + ":" + PadStart2(IntToString(s))
  {
  }


  // ---------------------------------------------------------------------------
  // Form state and transitions

  /** The component's state: the five `useState` hooks and the form's `taskName`. */
  datatype TimerState = TimerState(
    isRunning: bool,
    time: int,
    currentTaskId: Option<int>,
    startTime: Option<int>,
    taskName: string,
    isLoading: bool)

  /** The state at mount, before the ongoing-task query has answered. */
  function Mount(): TimerState {
    TimerState(false, 0, None, None, "", true)
  }

  /** The form schema: `taskName` must have at least one character (no
      trimming). It accepts exactly the names the `POST` handler accepts. */
  predicate NameValid(name: string)
    ensures NameValid(name) <==> TruthyText(Some(name))
  {
    |name| >= 1
  }

  /** `fetchOngoingTask`: adopt the first ongoing task, if the query succeeded
      and returned any; always leave the loading state. */
  function Initialise(s: TimerState, fetched: Reply<seq<Task>>, now: int): (r: TimerState)
    ensures !r.isLoading
    ensures fetched.Err? || fetched.value == [] ==> r == s.(isLoading := false)
    ensures fetched.Ok? && fetched.value != [] ==>
      var first := fetched.value[0];
      && r.isRunning
      && r.currentTaskId == Some(first.id)
      && r.taskName == first.name
      && r.startTime == Some(first.start)
      && r.time * 1000 <= now - first.start < r.time * 1000 + 1000
  {
    match fetched
    case Err => s.(isLoading := false)
    case Ok(tasks) =>
      if |tasks| == 0 then s.(isLoading := false)
      else
        var first := tasks[0];
        s.(startTime := Some(first.start), taskName := first.name, currentTaskId := Some(first.id),
           isRunning := true, time := Elapsed(now, first.start), isLoading := false)
  }

  /** The start branch of `onSubmit`: `startTime` is set before the request and
      kept even when the request fails. */
  function Start(s: TimerState, now: int, created: Reply<Task>): (r: TimerState)
    requires !s.isRunning
    ensures r.startTime == Some(now)
    ensures r.taskName == s.taskName && r.isLoading == s.isLoading
    ensures created.Ok? ==> r.isRunning && r.currentTaskId == Some(created.value.id) && r.time == 0
    ensures created.Err? ==> !r.isRunning && r.currentTaskId == s.currentTaskId && r.time == s.time
  {
    var s1 := s.(startTime := Some(now));
    match created
    case Err => s1
    case Ok(task) => s1.(currentTaskId := Some(task.id), isRunning := true, time := 0)
  }

  /** The stop branch of `onSubmit`: acts only on a truthy task id, and only
      when the request succeeds; a failure changes nothing. */
  function Stop(s: TimerState, stopped: Reply<Task>): (r: TimerState)
    requires s.isRunning
    ensures !Truthy(s.currentTaskId) || stopped.Err? ==> r == s
    ensures Truthy(s.currentTaskId) && stopped.Ok? ==>
      && !r.isRunning && r.currentTaskId == None && r.startTime == None
      && r.taskName == "" && r.time == 0 && r.isLoading == s.isLoading
  {
    if !Truthy(s.currentTaskId) then s
    else
      match stopped
      case Err => s
      case Ok(_) => s.(isRunning := false, currentTaskId := None, startTime := None, taskName := "", time := 0)
  }

  /** Submitting the form: the schema check runs first (on both branches),
      then the start or stop branch by `isRunning`. `reply` is the answer to
      whichever request that branch sends. */
  function Submit(s: TimerState, now: int, reply: Reply<Task>): (r: TimerState)
    ensures !NameValid(s.taskName) ==> r == s
    ensures NameValid(s.taskName) && !s.isRunning ==> r == Start(s, now, reply)
    ensures NameValid(s.taskName) && s.isRunning ==> r == Stop(s, reply)
  {
    if !NameValid(s.taskName) then s
    else if !s.isRunning then Start(s, now, reply)
    else Stop(s, reply)
  }

  /** One interval callback: while running with a truthy `startTime`, `time`
      becomes the whole seconds since `startTime`; nothing else changes. */
  function Tick(s: TimerState, now: int): (r: TimerState)
    ensures s.isRunning && Truthy(s.startTime) ==>
      && r.time * 1000 <= now - s.startTime.value < r.time * 1000 + 1000
      && r == s.(time := r.time)
    ensures !(s.isRunning && Truthy(s.startTime)) ==> r == s
  {
    if s.isRunning && Truthy(s.startTime) then s.(time := Elapsed(now, s.startTime.value)) else s
  }

  /** A tick's result does not depend on the previous displayed time. */
  lemma TickIgnoresPreviousTime(s: TimerState, a: int, b: int, now: int)
    requires s.isRunning && Truthy(s.startTime)
    ensures Tick(s.(time := a), now) == Tick(s.(time := b), now)
  {
  }

  /** A successful start at a non-zero instant `now0`, then a tick `n` seconds
      (plus less than one second) later, displays `n`. */
  lemma TickCountsSecondsSinceStart(s: TimerState, now0: int, row: Task, n: nat, d: int)
    requires !s.isRunning && NameValid(s.taskName) && now0 != 0
    requires 0 <= d < 1000
    ensures var started := Submit(s, now0, Ok(row));
      && started.isRunning && started.currentTaskId == Some(row.id)
      && Tick(started, now0 + 1000 * n + d).time == n
  {
  }

  /** The schema does not trim: a name of one space starts a task. */
  lemma BlankNameStarts(s: TimerState, now: int, row: Task)
    requires !s.isRunning && s.taskName == " "
    ensures Submit(s, now, Ok(row)).isRunning
    ensures Submit(s, now, Ok(row)).currentTaskId == Some(row.id)
  {
  }

  /** A `startTime` of 0 is falsy, so a timer started at the epoch never ticks. */
  lemma NoTickAtEpochStart(s: TimerState, now: int)
    requires s.startTime == Some(0)
    ensures Tick(s, now) == s
  {
  }

  /** A running timer whose task id is 0 (falsy) cannot be stopped. */
  lemma ZeroIdCannotStop(s: TimerState, now: int, reply: Reply<Task>)
    requires s.isRunning && s.currentTaskId == Some(0)
    ensures Submit(s, now, reply) == s
  {
  }

  /** The invariant every state reached after loading keeps: a running timer
      has a task id and a start instant; an idle one shows 0 and has no id. */
  predicate Coherent(s: TimerState) {
    && (s.isRunning ==> s.currentTaskId.Some? && s.startTime.Some?)
    && (!s.isRunning ==> s.time == 0 && s.currentTaskId == None)
  }

  /** Initialisation from the mount state is coherent, whatever the query gave;
      an empty or failed query leaves the timer idle at 0 with no task. */
  lemma InitialiseCoherent(fetched: Reply<seq<Task>>, now: int)
    ensures Coherent(Initialise(Mount(), fetched, now))
    ensures !Initialise(Mount(), fetched, now).isRunning <==> fetched.Err? || fetched.value == []
  {
  }

  /** Submitting and ticking preserve coherence. */
  lemma TransitionsPreserveCoherent(s: TimerState, now: int, reply: Reply<Task>)
    requires Coherent(s)
    ensures Coherent(Submit(s, now, reply))
    ensures Coherent(Tick(s, now))
  {
  }

  /** While the timer keeps running its task name never changes. */
  lemma NameFixedWhileRunning(s: TimerState, now: int, reply: Reply<Task>)
    requires s.isRunning
    ensures Submit(s, now, reply).isRunning ==> Submit(s, now, reply).taskName == s.taskName
    ensures Tick(s, now).taskName == s.taskName
  {
  }

  // ---------------------------------------------------------------------------
  // The form against the `/api/tasks` handlers

  /** `response.ok`. */
  predicate OkStatus(status: int) {
    200 <= status <= 299
  }

  /** What the start branch reads from a `POST` response: the created row when
      the response is ok and carries one, an error otherwise. */
  function CreatedRow(resp: Response): (r: Reply<Task>)
    ensures r.Ok? <==> OkStatus(resp.status) && resp.body.RowBody?
    ensures r.Ok? ==> resp.body == RowBody(r.value)
  {
    if OkStatus(resp.status) && resp.body.RowBody? then Ok(resp.body.row) else Err
  }

  /** What `fetchOngoingTask` reads from a `GET` response: the rows when the
      response is ok and carries a list, an error otherwise. */
  function FetchedRows(resp: Response): (r: Reply<seq<Task>>)
    ensures r.Ok? <==> OkStatus(resp.status) && resp.body.RowsBody?
    ensures r.Ok? ==> resp.body == RowsBody(r.value)
  {
    if OkStatus(resp.status) && resp.body.RowsBody? then Ok(resp.body.rows) else Err
  }

  /** The start branch sees a created row exactly when the handler inserted
      one, and the row it sees is the one inserted. */
  lemma CreatedRowIffInserted(store: seq<Task>, req: PostRequest, outcome: Outcome, newId: int)
    ensures var (resp, store') := Post(store, req, outcome, newId);
      && (CreatedRow(resp).Ok? <==> |store'| == |store| + 1)
      && (CreatedRow(resp).Ok? ==> CreatedRow(resp).value == store'[|store|])
  {
  }

  /** `fetchOngoingTask` sees rows exactly when the store query was answered,
      and then it sees the handler's rows. */
  lemma FetchedRowsIffAnswered(store: seq<Task>, q: GetQuery, outcome: Outcome)
    ensures FetchedRows(Get(store, q, outcome)).Ok? <==> outcome.Answered?
    ensures outcome.Answered? ==> FetchedRows(Get(store, q, outcome)).value == Get(store, q, outcome).body.rows
  {
  }

  const OngoingQuery := GetQuery(None, None, Some("true"))

  /** Starting through the `POST` handler: a name that passes the form schema
      also passes the handler's check, so either the store gains one ongoing
      row and the timer runs with its id, or the store is unchanged and the
      timer stays idle (with `startTime` already overwritten). */
  lemma StartThroughRoute(s: TimerState, store: seq<Task>, now: int, outcome: Outcome, newId: int)
    requires !s.isRunning && NameValid(s.taskName)
    ensures var (resp, store') := Post(store, PostBody(Some(s.taskName), now), outcome, newId);
      var r := Submit(s, now, CreatedRow(resp));
      && r.startTime == Some(now)
      && (outcome.Answered? ==>
            r.isRunning && r.currentTaskId == Some(newId)
            && store' == store + [Task(newId, s.taskName, now, None)])
      && (!outcome.Answered? ==> !r.isRunning && store' == store)
  {
  }

  /** Reloading after a successful start, when no other task was ongoing,
      restores the same running state, with the elapsed time a tick at that
      instant would show. */
  lemma ReloadRestoresRunning(s: TimerState, store: seq<Task>, now: int, newId: int, later: int)
    requires !s.isRunning && NameValid(s.taskName) && now != 0
    requires forall t :: t in store ==> t.end.Some?
    ensures var (resp, store') := Post(store, PostBody(Some(s.taskName), now), Answered, newId);
      var running := Submit(s, now, CreatedRow(resp));
      var reloaded := Initialise(Mount(), FetchedRows(Get(store', OngoingQuery, Answered)), later);
      && reloaded.isRunning && running.isRunning
      && reloaded.currentTaskId == running.currentTaskId
      && reloaded.startTime == running.startTime
      && reloaded.taskName == running.taskName
      && reloaded.time == Tick(running, later).time
  {
    PostThenOngoing(store, s.taskName, now, newId);
  }

  /** On load the timer adopts an ongoing stored task that started no earlier
      than any other ongoing task (the handler orders newest first); with no
      ongoing task it stays idle. */
  lemma InitialiseAdoptsLatestOngoing(store: seq<Task>, now: int)
    ensures var r := Initialise(Mount(), FetchedRows(Get(store, OngoingQuery, Answered)), now);
      && (r.isRunning <==> exists t :: t in store && t.end.None?)
      && (r.isRunning ==>
            exists chosen :: chosen in store && chosen.end.None?
              && r.currentTaskId == Some(chosen.id) && r.startTime == Some(chosen.start)
              && (forall t :: t in store && t.end.None? ==> t.start <= chosen.start))
      && (!r.isRunning ==> r.currentTaskId == None && r.time == 0)
  {
    var rows := Get(store, OngoingQuery, Answered).body.rows;
    if rows != [] {
      var chosen := rows[0];
      assert chosen in rows;
      forall t | t in store && t.end.None?
        ensures t.start <= chosen.start
      {
        assert t in rows;
        var j :| 0 <= j < |rows| && rows[j] == t;
      }
    }
  }
}
